=== FILE: README.md ===
# Boss catalogue query engine — a Dafny model

This project models the logic of `script.js`, the client-side boss catalogue of
a video game fan page. The catalogue loads a list of bosses once. It then shows the
bosses that match a search term and a difficulty filter, sorted alphabetically
or in game-progression order, with a count label underneath. Clicking a card
opens a detail overlay.

The model is functional: the dataset, the query and the overlay state are
immutable values, and every operation is a pure function of them. Because
filtering and sorting build a new list from a dataset value, the dataset itself
is never changed.

Modules, one per concern of the script:

- `Text` — ASCII lower-casing, `startsWith` and `includes`. `includes` is
  proved equal to an independent "occurs at some index" definition.
- `Bosses` — the `Boss` record, the `Query` (term, difficulty, order), the match
  predicate of `filterBosses` and the filter itself.
- `Ordering` — the two comparators (lexicographic on `name`, numeric on
  `order`) and a stable insertion sort standing for `Array.prototype.sort`.
- `Catalog` — filter then sort (`Visible`), the count it reports, the reset
  query, case-insensitivity and idempotence.
- `Icons` — `renderIcon` as a choice between `Image(src)` and `Inline(symbol)`.
- `BossCount` — the "Exibindo N chefe/chefes" label.
- `Modal` — lookup by id and the Closed/Open overlay state machine.
- `Details` — which optional sections the detail body renders.

A reset does not reproduce the initial load. The load (script.js:13-15) keeps
the dataset in file order, unsorted. A reset (script.js:173-177) re-filters and
sorts by progression. The model proves only that a reset shows every boss, in
progression order.

## Model

| member | source | states |
|---|---|---|
| Text.Includes | script.js:88-90 | `includes` holds iff the needle occurs in the text at some index. |
| Text.IncludesEmpty | script.js:88-90 | The empty term is contained in every string. |
| Text.Lower | script.js:83 | The lower-cased string equals the input up to the letter case of each character, and has no upper-case ASCII letter. |
| Text.LowerCharEqualIff | script.js:88-90 | Two characters lower-case alike iff they are the same character or the two cases of one ASCII letter. |
| Text.LowerEqualIff | script.js:83 | Two terms lower-case to the same string iff they differ only in letter case. |
| Text.LowerOfUpper | script.js:83 | Lower-casing an upper-cased term gives the lower-cased term back. |
| Text.StartsWithIsPrefix | script.js:31 | `s.startsWith(p)` holds iff `s` is `p` followed by some rest. |
| Bosses.Filter | script.js:87-94 | A boss is in the result iff it is in the dataset and matches the query. A matching boss keeps its multiplicity, and a non-matching one is dropped. |
| Bosses.Matches | script.js:87-93 | The filter predicate: a boss matches iff the lower-cased term occurs in its lower-cased name, description or summon text, and the filter is "all" or equals its difficulty exactly. |
| Bosses.FilterAppend | script.js:87-94 | Filtering distributes over concatenation, so it keeps dataset order. |
| Bosses.FilterKeepsAllWhenAllMatch | script.js:87-94 | When every boss matches, the filter returns the dataset unchanged. |
| Bosses.FilterSamePredicate | script.js:87-94 | Two queries that accept the same bosses filter identically. |
| Bosses.EmptyTermAndSentinelMatchAll | script.js:88-91 | With term "" and difficulty "all", every boss matches. |
| Bosses.SentinelIgnoresDifficulty | script.js:91 | With difficulty "all", matching depends on the search term only. |
| Ordering.LexLe | script.js:98 | The name comparator: a name sorts no later than any name it is a prefix of, itself included. |
| Ordering.Before | script.js:97-101 | In progression mode `a` may precede `b` iff `a.order - b.order <= 0`. Every boss may precede itself. |
| Ordering.BeforeTotal | script.js:97-101 | Under either comparator any two bosses are comparable. |
| Ordering.BeforeTransitive | script.js:97-101 | Either comparator is transitive. |
| Ordering.LexLeTotal | script.js:98 | Any two names are comparable under the name order. |
| Ordering.LexLeTransitive | script.js:98 | The name order is transitive. |
| Ordering.LexLeAntisymmetric | script.js:98 | Names that compare equal both ways are the same name. |
| Ordering.ModeOf | script.js:97-101 | Only the exact value "alphabetical" selects the name order; any other value selects progression order. |
| Ordering.Insert | script.js:97-101 | Inserting into a sorted list gives a sorted list with exactly one more copy of the new element. |
| Ordering.Sort | script.js:97-101 | The sort result is ordered under the selected comparator and is a permutation of its input. |
| Ordering.SortOfSorted | script.js:97-101 | An already ordered list is left unchanged by the sort. |
| Ordering.SortIdempotent | script.js:97-101 | Sorting twice is the same as sorting once. |
| Ordering.InsertPeers | script.js:97-101 | Inserting an element puts it in front of the elements that compare equal to it, and keeps their order. |
| Ordering.SortStable | script.js:97-101 | Bosses that compare equal keep their relative input order. |
| Ordering.ProgressionSortedOnOrder | script.js:99-101 | In progression mode the result is non-decreasing on `order`. |
| Ordering.AlphabeticalSortedOnName | script.js:97-98 | In alphabetical mode the result is non-decreasing on `name`. |
| Ordering.ProgressionExample | script.js:99-101 | Bosses with orders 3, 1, 2 are displayed as 1, 2, 3. |
| Catalog.Visible | script.js:87-101 | The displayed list holds exactly the matching bosses with their multiplicities, ordered under the selected comparator. |
| Catalog.VisibleCount | script.js:103-104 | The count passed to the label equals the number of matching bosses, which is at most the dataset size. |
| Catalog.NonAlphabeticalIsProgression | script.js:97-101 | For every order value other than "alphabetical", the displayed list is non-decreasing on `order`. |
| Catalog.AlphabeticalIsByName | script.js:97-98 | For "alphabetical", the displayed list is non-decreasing on `name`. |
| Catalog.ResetQuery | script.js:173-176 | The reset query lets every boss through and selects progression order. |
| Catalog.ResetShowsEveryBoss | script.js:173-177 | After a reset the display is every boss of the dataset, as a permutation, in progression order. |
| Catalog.SearchIgnoresCase | script.js:83-90 | Terms equal up to letter case give the same displayed list. |
| Catalog.UpperCaseTermSameResult | script.js:83-90 | Searching for the upper-cased term displays the same list. |
| Catalog.VisibleIdempotent | script.js:87-101 | Applying the same query to the displayed list changes nothing. |
| Icons.RenderIcon | script.js:29-40 | The value is an image iff it starts with `http://` or `https://` or contains one of `.png`, `.jpg`, `.jpeg`, `.gif`, `.webp`. Either way the value is carried unchanged. |
| Icons.RenderIconKeepsValue | script.js:31-39 | The outcome always carries the original value. |
| Icons.UrlIsImage | script.js:31-33 | A value with a web scheme is an image. |
| Icons.ExtensionIsImage | script.js:35-37 | A value containing an image extension is an image, even without a scheme. |
| Icons.IconExamples | script.js:29-40 | "https://x/i.png" and "skins/boss.png" are images, and "🔥" is inline. |
| BossCount.Decimal | script.js:77 | The printed count is a non-empty string of digits with no leading zero. |
| BossCount.DecimalRoundTrip | script.js:77 | The printed numeral reads back as the count. |
| BossCount.CountWord | script.js:77 | The noun is "chefe" iff the count is 1, and "chefes" otherwise. |
| BossCount.CountLabel | script.js:77 | The label starts with "Exibindo ", ends in " chefe" or " chefes" by the count word (so in the plural "s" iff the count is not 1), and the numeral between them has no leading zero and reads back as the count, so it is the canonical numeral. |
| Modal.FindById | script.js:109 | The lookup finds nothing iff no boss has the id. Otherwise it returns the first boss with that id. |
| Modal.Step | script.js:108-229 | An unknown id leaves the state as it was. A known id opens the overlay on the first boss of the dataset with that id, the one `find` returns. The close control, an overlay click and Escape close it. Other keys and other clicks change nothing. |
| Modal.Run | script.js:108-229 | Over any sequence of events, an open overlay only ever shows a boss of the dataset. |
| Modal.UnknownIdsAreNoOps | script.js:109-110 | Any number of requests for absent ids leave the overlay state unchanged. |
| Modal.CloseEventsClose | script.js:212-229 | Each closing event closes the overlay from any state, and repeating it keeps it closed. |
| Modal.OpeningReplacesContent | script.js:115-169 | A successful request replaces whatever was shown before. |
| Details.PresentSections | script.js:134-166 | The detail body has a section for each truthy optional field and for no other, each once, in rendering order. |
| Details.Truthy | script.js:134-161 | A field is falsy iff it is absent, zero or the empty string. |
| Details.NoOptionalFieldsNoSections | script.js:134-166 | A boss with no truthy optional field gets no optional section. |

## Left out

- Loading (`loadData`, script.js:6-26): fetching `data.json`, JSON parsing and the error banner are network I/O. The dataset is a parameter of every operation.
- Markup: the card and detail HTML strings (script.js:43-71, 115-167) become structured values (`Icon`, `Section`, the `Boss` fields). HTML escaping and styling are not modelled.
- DOM plumbing: `style.display`, reading the input elements and wiring the listeners (script.js:181-231). Only the abstract transitions of the overlay are kept.
- The image `onerror` fallback (script.js:32, 36) is browser behaviour.
- Text.Lower: lower-cases ASCII letters only. JavaScript's `toLowerCase` also maps non-ASCII letters, which is not modelled.
- Ordering.LexLe: orders by character code. `localeCompare` uses locale collation, which cannot be modelled without the locale tables.
- Ordering.Sort: the comparator `a.order - b.order` is modelled on integer `order` values. NaN results from missing or non-numeric `order` fields are not modelled.
- Modal.FindById: compares ids as integers. A string id in the data file would never equal the numeric argument, and that case is not modelled.
- The no-op `.replace('-', '-')` of the difficulty class name (script.js:62, 119) has no effect, so it is not modelled.
- Truthiness of NaN, `null` and `false` field values: fields are Absent, a number or a string.
- The initial load shows the dataset unsorted (script.js:14-15). No claim relates it to the reset result.
- Missing record fields: `name`, `description`, `summon`, `difficulty` and `icon` are modelled as strings that are always present. In the source the filter throws a TypeError on a missing `name` (script.js:88), on a missing `description` when the name did not contain the term (script.js:89), and on a missing `summon` when neither of those contained it (script.js:90). A missing field that the short-circuit `||` skips is shown as the text "undefined" and throws nothing. A missing `difficulty` passes the strict comparison of the filter (script.js:91) but throws where it is lower-cased, in the card (script.js:62) and in the detail overlay (script.js:119). A missing `icon` throws in `renderIcon` (script.js:31). A throw in the filter or in the card markup leaves the card grid and the count as they were, and a throw in the detail markup leaves the overlay unopened. That exception path is not modelled.

=== FILE: bosses.dfy ===
/** The boss records of the catalogue and the query filter over them
    (script.js, `filterBosses`). */
module Bosses {
  import opened Text

  /** A value of an optional record field, as read from the data file. */
  datatype Field = Absent | Num(n: int) | Str(s: string)

  /** One boss record. `order` is the position in game progression. */
  datatype Boss = Boss(
    id: int,
    name: string,
    icon: string,
    difficulty: string,
    order: int,
    description: string,
    summon: string,
    health: Field,
    defense: Field,
    damage: Field,
    tips: Field,
    rewards: Field
  )

  /** What the search box, the difficulty select and the order select hold. */
  datatype Query = Query(term: string, difficulty: string, order: string)

  /** The sentinel value of the difficulty select that lets every boss through. */
  const AllDifficulties: string := "all"

  /** The search part of the filter; `needle` is the already lower-cased term. */
  predicate MatchesSearch(b: Boss, needle: string) {
    || Includes(Lower(b.name), needle)
    || Includes(Lower(b.description), needle)
    || Includes(Lower(b.summon), needle)
  }

  /** The difficulty part of the filter: the sentinel, or an exact match. */
  predicate MatchesDifficulty(b: Boss, difficulty: string) {
    difficulty == AllDifficulties || b.difficulty == difficulty
  }

  /** The predicate `filterBosses` passes to `Array.prototype.filter`. The term is
      lower-cased once, before any boss is looked at. Spelled out: the lower-cased
      term occurs in the lower-cased name, description or summon text, and the
      difficulty filter is the sentinel or equal to the boss's difficulty. */
  predicate Matches(b: Boss, q: Query)
    ensures Matches(b, q) <==>
      (|| (exists i :: OccursAt(Lower(b.name), Lower(q.term), i))
       || (exists i :: OccursAt(Lower(b.description), Lower(q.term), i))
       || (exists i :: OccursAt(Lower(b.summon), Lower(q.term), i)))
      && (q.difficulty == "all" || q.difficulty == b.difficulty)
  {
    MatchesSearch(b, Lower(q.term)) && MatchesDifficulty(b, q.difficulty)
  }

  /** `allBosses.filter(...)`: the bosses that match, in dataset order. A boss
      occurs in the result exactly as often as in the dataset when it matches,
      and not at all otherwise. */
  function Filter(all: seq<Boss>, q: Query): (r: seq<Boss>)
    ensures forall b :: b in r <==> b in all && Matches(b, q)
    ensures forall b :: multiset(r)[b] == if Matches(b, q) then multiset(all)[b] else 0
    ensures |r| <= |all|
  {
    if |all| == 0 then []
    else
      assert all == [all[0]] + all[1..];
      var rest := Filter(all[1..], q);
      if Matches(all[0], q) then [all[0]] + rest else rest
  }

  /** Filtering distributes over concatenation, so it keeps dataset order. */
  lemma {:induction false} FilterAppend(a: seq<Boss>, b: seq<Boss>, q: Query)
    ensures Filter(a + b, q) == Filter(a, q) + Filter(b, q)
    decreases |a|
  {
    if |a| == 0 {
      assert a + b == b;
    } else {
      assert (a + b)[0] == a[0];
      assert (a + b)[1..] == a[1..] + b;
      FilterAppend(a[1..], b, q);
      if Matches(a[0], q) {
        calc {
          Filter(a + b, q);
          [a[0]] + Filter(a[1..] + b, q);
          [a[0]] + (Filter(a[1..], q) + Filter(b, q));
          ([a[0]] + Filter(a[1..], q)) + Filter(b, q);
        }
      }
    }
  }

  /** When every boss matches, filtering returns the dataset itself. */
  lemma {:induction false} FilterKeepsAllWhenAllMatch(all: seq<Boss>, q: Query)
    requires forall b :: b in all ==> Matches(b, q)
    ensures Filter(all, q) == all
    decreases |all|
  {
    if |all| > 0 {
      assert forall b :: b in all[1..] ==> b in all;
      FilterKeepsAllWhenAllMatch(all[1..], q);
      assert Matches(all[0], q);
      assert all == [all[0]] + all[1..];
    }
  }

  /** A filter only depends on the query through the predicate it induces. */
  lemma {:induction false} FilterSamePredicate(all: seq<Boss>, q1: Query, q2: Query)
    requires forall b :: b in all ==> (Matches(b, q1) <==> Matches(b, q2))
    ensures Filter(all, q1) == Filter(all, q2)
    decreases |all|
  {
    if |all| > 0 {
      assert forall b :: b in all[1..] ==> b in all;
      FilterSamePredicate(all[1..], q1, q2);
    }
  }

  /** With the empty term and the sentinel difficulty every boss matches. */
  lemma EmptyTermAndSentinelMatchAll(b: Boss, order: string)
    ensures Matches(b, Query("", AllDifficulties, order))
  {
    IncludesEmpty(Lower(b.name));
  }

  /** The sentinel difficulty is the same as no difficulty filter at all. */
  lemma SentinelIgnoresDifficulty(b: Boss, q: Query)
    requires q.difficulty == AllDifficulties
    ensures Matches(b, q) <==> MatchesSearch(b, Lower(q.term))
  {
  }
}

=== FILE: catalog.dfy ===
/** The whole query step of `filterBosses`: filter, then sort, then report the
    count; and the defaults `resetFilters` restores. */
module Catalog {
  import opened Text
  import opened Bosses
  import opened Ordering

  /** The list `filterBosses` displays for dataset `all` and query `q`. */
  function Visible(all: seq<Boss>, q: Query): (r: seq<Boss>)
    ensures forall b :: b in r <==> b in all && Matches(b, q)
    ensures forall b :: multiset(r)[b] == if Matches(b, q) then multiset(all)[b] else 0
    ensures SortedBy(ModeOf(q.order), r)
  {
    Sort(ModeOf(q.order), Filter(all, q))
  }

  /** The number `filterBosses` hands to the count label: sorting drops nothing,
      so it is the number of matching bosses. */
  function VisibleCount(all: seq<Boss>, q: Query): (n: nat)
    ensures n == |Filter(all, q)|
    ensures n <= |all|
  {
    |Visible(all, q)|
  }

  /** The query `resetFilters` installs before re-filtering: it lets every boss
      through and sorts by progression. */
  function ResetQuery(): (q: Query)
    ensures forall b :: Matches(b, q)
    ensures ModeOf(q.order) == Progression
  {
    var q := Query("", AllDifficulties, "progression");
    assert forall b :: Matches(b, q) by {
      forall b ensures Matches(b, q) {
        EmptyTermAndSentinelMatchAll(b, "progression");
      }
    }
    q
  }

  /** Any order value other than "alphabetical" sorts by progression. */
  lemma NonAlphabeticalIsProgression(all: seq<Boss>, q: Query)
    requires q.order != "alphabetical"
    ensures forall i, j :: 0 <= i < j < |Visible(all, q)| ==>
      Visible(all, q)[i].order <= Visible(all, q)[j].order
  {
    ProgressionSortedOnOrder(Filter(all, q));
  }

  /** In alphabetical mode the displayed names are in lexicographic order. */
  lemma AlphabeticalIsByName(all: seq<Boss>, q: Query)
    requires q.order == "alphabetical"
    ensures forall i, j :: 0 <= i < j < |Visible(all, q)| ==>
      LexLe(Visible(all, q)[i].name, Visible(all, q)[j].name)
  {
    AlphabeticalSortedOnName(Filter(all, q));
  }

  /** After a reset every boss is displayed, in progression order. */
  lemma ResetShowsEveryBoss(all: seq<Boss>)
    ensures Visible(all, ResetQuery()) == Sort(Progression, all)
    ensures multiset(Visible(all, ResetQuery())) == multiset(all)
    ensures forall i, j :: 0 <= i < j < |Visible(all, ResetQuery())| ==>
      Visible(all, ResetQuery())[i].order <= Visible(all, ResetQuery())[j].order
  {
    FilterKeepsAllWhenAllMatch(all, ResetQuery());
    ProgressionSortedOnOrder(all);
  }

  /** Terms that differ only in letter case select and order the same list. */
  lemma SearchIgnoresCase(all: seq<Boss>, q: Query, term: string)
    requires EqualIgnoringCase(q.term, term)
    ensures Visible(all, q.(term := term)) == Visible(all, q)
  {
    LowerEqualIff(q.term, term);
    FilterSamePredicate(all, q, q.(term := term));
  }

  /** Searching for the upper-cased term gives the same result. */
  lemma UpperCaseTermSameResult(all: seq<Boss>, q: Query)
    ensures Visible(all, q.(term := Upper(q.term))) == Visible(all, q)
  {
    LowerOfUpper(q.term);
    SearchIgnoresCase(all, q, Upper(q.term));
  }

  /** Re-applying the query to what is displayed changes nothing. */
  lemma VisibleIdempotent(all: seq<Boss>, q: Query)
    ensures Visible(Visible(all, q), q) == Visible(all, q)
  {
    var v := Visible(all, q);
    FilterKeepsAllWhenAllMatch(v, q);
    SortOfSorted(ModeOf(q.order), v);
  }
}

=== FILE: count.dfy ===
/** The label `updateBossCount` writes: "Exibindo <n> chefe" for one boss and
    "Exibindo <n> chefes" otherwise. */
module BossCount {

  predicate IsDigit(c: char) {
    '0' <= c <= '9'
  }

  function DigitChar(d: nat): (c: char)
    requires d < 10
    ensures IsDigit(c)
  {
    ('0' as int + d) as char
  }

  /** The decimal numeral of a count, as a template literal prints it. */
  function Decimal(n: nat): (r: string)
    ensures |r| >= 1
    ensures forall i :: 0 <= i < |r| ==> IsDigit(r[i])
    ensures r[0] == '0' ==> n == 0
    ensures |r| > 1 ==> r[0] != '0'
    decreases n
  {
    if n < 10 then [DigitChar(n)] else Decimal(n / 10) + [DigitChar(n % 10)]
  }

  /** Reads a string of decimal digits back as a number. */
  function ParseDecimal(s: string): nat
    requires forall i :: 0 <= i < |s| ==> IsDigit(s[i])
    decreases |s|
  {
    if |s| == 0 then 0
    else
      assert IsDigit(s[|s| - 1]);
      ParseDecimal(s[..|s| - 1]) * 10 + (s[|s| - 1] as int - '0' as int)
  }

  /** The numeral printed in the label denotes the count. */
  lemma {:induction false} DecimalRoundTrip(n: nat)
    ensures ParseDecimal(Decimal(n)) == n
    decreases n
  {
    if n >= 10 {
      DecimalRoundTrip(n / 10);
      var d := Decimal(n);
      assert d[..|d| - 1] == Decimal(n / 10);
    }
  }

  /** The noun of the label: singular exactly for a count of one. */
  function CountWord(n: nat): (w: string)
    ensures w == "chefe" <==> n == 1
    ensures w == "chefes" <==> n != 1
  {
    if n == 1 then "chefe" else "chefes"
  }

  /** The whole text `updateBossCount` shows for `n` visible bosses. It ends in
      the plural 's' exactly when the count is not one, and the numeral between
      the prefix and the noun reads back as the count. */
  function CountLabel(n: nat): (l: string)
    ensures |l| >= 11 + |CountWord(n)|
    ensures l[..9] == "Exibindo "
    ensures l[|l| - |CountWord(n)| - 1..] == " " + CountWord(n)
    ensures l[|l| - 1] == 's' <==> n != 1
    ensures var d := l[9..|l| - |CountWord(n)| - 1];
      (forall i :: 0 <= i < |d| ==> IsDigit(d[i])) && ParseDecimal(d) == n
      && (|d| > 1 ==> d[0] != '0')
  {
    var d, w := Decimal(n), CountWord(n);
    var l := "Exibindo " + d + (" " + w);
    assert |l| == 9 + |d| + 1 + |w|;
    assert l[9..|l| - |w| - 1] == d;
    assert l[|l| - |w| - 1..] == " " + w;
    DecimalRoundTrip(n);
    l
  }
}

=== FILE: details.dfy ===
/** Which optional sections the detail body of `showBossDetails` contains: a
    section is rendered only when its field is truthy in the JavaScript sense. */
module Details {
  import opened Bosses

  /** The optional sections of the detail body, in the order they are rendered. */
  datatype Section = Health | Defense | Damage | Tips | Rewards

  const SectionOrder: seq<Section> := [Health, Defense, Damage, Tips, Rewards]

  function FieldOf(b: Boss, k: Section): Field {
    match k
    case Health => b.health
    case Defense => b.defense
    case Damage => b.damage
    case Tips => b.tips
    case Rewards => b.rewards
  }

  /** JavaScript truthiness of a field value: the falsy values are exactly the
      absent field, zero and the empty string. */
  predicate Truthy(f: Field)
    ensures !Truthy(f) <==> f == Absent || f == Num(0) || f == Str("")
  {
    match f
    case Absent => false
    case Num(n) => n != 0
    case Str(s) => s != ""
  }

  /** Keep the sections of `ks` whose field is truthy, in the order of `ks`. */
  function PresentAmong(b: Boss, ks: seq<Section>): (r: seq<Section>)
    ensures forall k :: k in r <==> k in ks && Truthy(FieldOf(b, k))
    ensures |r| <= |ks|
    decreases |ks|
  {
    if |ks| == 0 then []
    else if Truthy(FieldOf(b, ks[0])) then [ks[0]] + PresentAmong(b, ks[1..])
    else PresentAmong(b, ks[1..])
  }

  /** The optional sections rendered for `b`: every truthy one, no other, each
      once and in rendering order. */
  function PresentSections(b: Boss): (r: seq<Section>)
    ensures forall k :: k in r <==> Truthy(FieldOf(b, k))
    ensures Ranked(r)
  {
    var order := SectionOrder;
    SectionOrderComplete();
    PresentAmongOrdered(b, order);
    PresentAmong(b, order)
  }

  /** The rendering order lists every section, by increasing rank. */
  lemma SectionOrderComplete()
    ensures forall k :: k in SectionOrder
    ensures Ranked(SectionOrder)
  {
    forall k ensures k in SectionOrder {
      assert SectionOrder[Rank(k)] == k;
    }
  }

  /** Position of a section in the rendered body. */
  function Rank(k: Section): nat {
    match k
    case Health => 0
    case Defense => 1
    case Damage => 2
    case Tips => 3
    case Rewards => 4
  }

  /** Strictly increasing rank: each section at most once, in rendering order. */
  ghost predicate Ranked(ks: seq<Section>) {
    forall i, j :: 0 <= i < j < |ks| ==> Rank(ks[i]) < Rank(ks[j])
  }

  /** Filtering keeps the relative order of the sections it keeps. */
  lemma {:induction false} PresentAmongOrdered(b: Boss, ks: seq<Section>)
    requires Ranked(ks)
    ensures Ranked(PresentAmong(b, ks))
    decreases |ks|
  {
    if |ks| > 0 {
      PresentAmongOrdered(b, ks[1..]);
      var rest := PresentAmong(b, ks[1..]);
      assert forall k :: k in rest ==> Rank(ks[0]) < Rank(k) by {
        forall k | k in rest ensures Rank(ks[0]) < Rank(k) {
          var j :| 0 <= j < |ks[1..]| && ks[1..][j] == k;
          assert ks[j + 1] == k;
        }
      }
      var r := PresentAmong(b, ks);
      if Truthy(FieldOf(b, ks[0])) {
        assert r == [ks[0]] + rest;
        assert forall i :: 0 < i < |r| ==> r[i] == rest[i - 1] && r[i] in rest;
      } else {
        assert r == rest;
      }
    }
  }

  /** A boss with every optional field falsy shows no optional section. */
  lemma NoOptionalFieldsNoSections(b: Boss)
    requires forall k :: !Truthy(FieldOf(b, k))
    ensures PresentSections(b) == []
  {
  }
}

=== FILE: icons.dfy ===
/** How `renderIcon` decides between an image and an inline symbol. The markup
    itself is replaced by the structured outcome. */
module Icons {
  import opened Text

  /** An `<img>` whose source is the icon value, or the value shown as text. */
  datatype Icon = Image(src: string) | Inline(symbol: string)

  /** The file extensions that make a value an image path, in the order `renderIcon` checks them. */
  const ImageExtensions: seq<string> := [".png", ".jpg", ".jpeg", ".gif", ".webp"]

  /** The value starts with an HTTP or HTTPS scheme. */
  predicate HasWebScheme(icon: string) {
    StartsWith(icon, "http://") || StartsWith(icon, "https://")
  }

  /** The value contains one of the image extensions anywhere. */
  predicate HasImageExtension(icon: string) {
    exists k :: 0 <= k < |ImageExtensions| && Includes(icon, ImageExtensions[k])
  }

  /** `renderIcon`: URLs first, then paths with an image extension, and every
      other value is returned unchanged as an inline symbol. */
  function RenderIcon(icon: string): (r: Icon)
    ensures r.Image? <==>
      || OccursAt(icon, "http://", 0)
      || OccursAt(icon, "https://", 0)
      || (exists e, i :: e in ImageExtensions && OccursAt(icon, e, i))
    ensures r.Image? ==> r.src == icon
    ensures r.Inline? ==> r.symbol == icon
  {
    if HasWebScheme(icon) then Image(icon)
    else if Includes(icon, ".png") || Includes(icon, ".jpg") || Includes(icon, ".jpeg")
         || Includes(icon, ".gif") || Includes(icon, ".webp") then
      Image(icon)
    else
      assert !HasImageExtension(icon);
      Inline(icon)
  }

  /** No information is lost: the outcome always carries the value it was given. */
  function IconValue(i: Icon): string {
    match i
    case Image(src) => src
    case Inline(symbol) => symbol
  }

  /** Rendering never changes the icon value, whichever branch it takes. */
  lemma RenderIconKeepsValue(icon: string)
    ensures IconValue(RenderIcon(icon)) == icon
  {
  }

  /** A URL is an image whatever it ends with. */
  lemma UrlIsImage(icon: string)
    requires HasWebScheme(icon)
    ensures RenderIcon(icon) == Image(icon)
  {
  }

  /** A value with an image extension is an image even without a scheme. */
  lemma ExtensionIsImage(icon: string, k: nat)
    requires k < |ImageExtensions| && Includes(icon, ImageExtensions[k])
    ensures RenderIcon(icon) == Image(icon)
  {
    assert HasImageExtension(icon);
  }

  /** Three typical icon values: a URL, an emoji, a relative path. */
  lemma IconExamples()
    ensures RenderIcon("https://x/i.png") == Image("https://x/i.png")
    ensures RenderIcon("🔥") == Inline("🔥")
    ensures RenderIcon("skins/boss.png") == Image("skins/boss.png")
  {
    assert StartsWith("https://x/i.png", "https://");
    assert OccursAt("skins/boss.png", ".png", 10);
    var path := "skins/boss.png";
    assert path[..7][0] == 's' && path[..8][0] == 's';
    assert !HasWebScheme(path);
  }
}

=== FILE: modal.dfy ===
/** The detail overlay: `showBossDetails` looks a boss up by id and shows it;
    the close control, a click on the overlay itself and Escape hide it. */
module Modal {
  import opened Bosses

  datatype Option<T> = None | Some(value: T)

  /** Index `k` holds the first boss of `all` whose id is `id`. */
  ghost predicate FirstWithId(all: seq<Boss>, id: int, k: int) {
    0 <= k < |all| && all[k].id == id && forall j :: 0 <= j < k ==> all[j].id != id
  }

  /** `allBosses.find(b => b.id === id)`: the first boss with that id, if any. */
  function FindById(all: seq<Boss>, id: int): (r: Option<Boss>)
    ensures r.None? <==> forall b :: b in all ==> b.id != id
    ensures r.Some? ==> r.value.id == id && exists k :: FirstWithId(all, id, k) && all[k] == r.value
    decreases |all|
  {
    if |all| == 0 then None
    else if all[0].id == id then Some(all[0])
    else
      var r := FindById(all[1..], id);
      assert forall b :: b in all ==> b == all[0] || b in all[1..];
      assert r.Some? ==> exists k :: FirstWithId(all, id, k) && all[k] == r.value by {
        if r.Some? {
          var k :| FirstWithId(all[1..], id, k) && all[1..][k] == r.value;
          assert forall j :: 1 <= j < k + 1 ==> all[j].id == all[1..][j - 1].id;
          assert FirstWithId(all, id, k + 1) && all[k + 1] == r.value;
        }
      }
      r
  }

  /** Whether the overlay is displayed, and the boss its body shows while it is. */
  datatype ModalState = Closed | Open(shown: Boss)

  /** What a click landed on: the overlay backdrop itself, or anything else. */
  datatype Target = Overlay | Elsewhere

  /** The inputs the overlay reacts to. */
  datatype Event =
    | ShowDetails(id: int)
    | CloseControl
    | WindowClick(target: Target)
    | KeyDown(key: string)

  /** One event handled by the listeners of script.js. */
  function Step(all: seq<Boss>, s: ModalState, e: Event): (s': ModalState)
    ensures e.ShowDetails? && (forall b :: b in all ==> b.id != e.id) ==> s' == s
    ensures e.ShowDetails? && (exists b :: b in all && b.id == e.id) ==>
      s'.Open? && s'.shown in all && s'.shown.id == e.id
      && exists k :: FirstWithId(all, e.id, k) && s'.shown == all[k]
    ensures e.CloseControl? || e == WindowClick(Overlay) ==> s' == Closed
    ensures e.KeyDown? ==> s' == (if e.key == "Escape" then Closed else s)
    ensures e == WindowClick(Elsewhere) ==> s' == s
  {
    match e
    case ShowDetails(id) =>
      (match FindById(all, id)
       case None => s
       case Some(b) => Open(b))
    case CloseControl => Closed
    case WindowClick(target) => if target == Overlay then Closed else s
    case KeyDown(key) => if key == "Escape" && s.Open? then Closed else s
  }

  /** The overlay only ever shows a boss of the dataset. */
  ghost predicate Valid(all: seq<Boss>, s: ModalState) {
    s.Open? ==> s.shown in all
  }

  /** Events handled one after another. A run from a valid state ends in a
      valid state: the overlay never shows a boss outside the dataset. */
  function Run(all: seq<Boss>, s: ModalState, es: seq<Event>): (r: ModalState)
    ensures Valid(all, s) ==> Valid(all, r)
    decreases |es|
  {
    if |es| == 0 then s else Run(all, Step(all, s, es[0]), es[1..])
  }

  /** Showing the details of an id nobody has leaves the overlay as it was, for
      any sequence of such requests. */
  lemma {:induction false} UnknownIdsAreNoOps(all: seq<Boss>, s: ModalState, es: seq<Event>)
    requires forall k :: 0 <= k < |es| ==> es[k].ShowDetails?
    requires forall k, b :: 0 <= k < |es| && b in all ==> b.id != es[k].id
    ensures Run(all, s, es) == s
    decreases |es|
  {
    if |es| > 0 {
      assert Step(all, s, es[0]) == s;
      UnknownIdsAreNoOps(all, s, es[1..]);
    }
  }

  /** Any closing event ends with the overlay hidden, wherever it started. */
  lemma CloseEventsClose(all: seq<Boss>, s: ModalState, e: Event)
    requires e == CloseControl || e == WindowClick(Overlay) || e == KeyDown("Escape")
    ensures Step(all, s, e) == Closed
    ensures Step(all, Step(all, s, e), e) == Closed
  {
  }

  /** Opening replaces whatever was shown before: the last successful request wins. */
  lemma OpeningReplacesContent(all: seq<Boss>, s: ModalState, id1: int, id2: int)
    requires exists b :: b in all && b.id == id2
    ensures Run(all, s, [ShowDetails(id1), ShowDetails(id2)]) == Step(all, Closed, ShowDetails(id2))
  {
    var es := [ShowDetails(id1), ShowDetails(id2)];
    var s1 := Step(all, s, es[0]);
    assert es[1..] == [ShowDetails(id2)];
    assert [ShowDetails(id2)][1..] == [];
    assert Run(all, s1, es[1..]) == Step(all, s1, ShowDetails(id2));
  }
}

=== FILE: ordering.dfy ===
/** The two orders `filterBosses` can sort by, and the sort itself
    (`Array.prototype.sort` with a comparator, which is stable). */
module Ordering {
  import opened Bosses

  /** Lexicographic order on strings by character code: the model of
      `a.localeCompare(b) <= 0`. */
  predicate LexLe(a: string, b: string)
    ensures |a| <= |b| && a == b[..|a|] ==> LexLe(a, b)
    decreases |a|
  {
    if |a| == 0 then true
    else if |b| == 0 then false
    else if a[0] != b[0] then a[0] < b[0]
    else LexLe(a[1..], b[1..])
  }

  /** Any two names are comparable. */
  lemma {:induction false} LexLeTotal(a: string, b: string)
    ensures LexLe(a, b) || LexLe(b, a)
    decreases |a|
  {
    if |a| > 0 && |b| > 0 && a[0] == b[0] {
      LexLeTotal(a[1..], b[1..]);
    }
  }

  /** The name order is transitive. */
  lemma {:induction false} LexLeTransitive(a: string, b: string, c: string)
    requires LexLe(a, b) && LexLe(b, c)
    ensures LexLe(a, c)
    decreases |a|
  {
    if |a| > 0 && |b| > 0 && |c| > 0 && a[0] == b[0] && b[0] == c[0] {
      LexLeTransitive(a[1..], b[1..], c[1..]);
    }
  }

  /** Names that compare equal both ways are the same name. */
  lemma {:induction false} LexLeAntisymmetric(a: string, b: string)
    requires LexLe(a, b) && LexLe(b, a)
    ensures a == b
    decreases |a|
  {
    if |a| > 0 {
      LexLeAntisymmetric(a[1..], b[1..]);
      assert a == [a[0]] + a[1..] && b == [b[0]] + b[1..];
    }
  }

  /** The value of the order select: "alphabetical", or anything else. */
  datatype Mode = Alphabetical | Progression

  /** Only the exact string "alphabetical" selects the alphabetical order; every
      other value of the select falls back to progression order. */
  function ModeOf(order: string): (m: Mode)
    ensures m == Alphabetical <==> order == "alphabetical"
  {
    if order == "alphabetical" then Alphabetical else Progression
  }

  /** `a` may stay before `b`: the comparator returns a value `<= 0`. Each boss
      may stay before itself. */
  predicate Before(m: Mode, a: Boss, b: Boss)
    ensures m == Progression ==> (Before(m, a, b) <==> a.order - b.order <= 0)
    ensures a == b ==> Before(m, a, b)
  {
    match m
    case Alphabetical => LexLe(a.name, b.name)
    case Progression => a.order <= b.order
  }

  /** Any two bosses are comparable. */
  lemma BeforeTotal(m: Mode, a: Boss, b: Boss)
    ensures Before(m, a, b) || Before(m, b, a)
  {
    if m == Alphabetical {
      LexLeTotal(a.name, b.name);
    }
  }

  /** Either comparator is transitive. */
  lemma BeforeTransitive(m: Mode, a: Boss, b: Boss, c: Boss)
    requires Before(m, a, b) && Before(m, b, c)
    ensures Before(m, a, c)
  {
    if m == Alphabetical {
      LexLeTransitive(a.name, b.name, c.name);
    }
  }

  /** Every earlier element may stay before every later one. */
  ghost predicate SortedBy(m: Mode, s: seq<Boss>) {
    forall i, j :: 0 <= i < j < |s| ==> Before(m, s[i], s[j])
  }

  /** Insert `x` in front of the first element it may precede, so `x` goes in
      front of the elements equal to it. */
  function Insert(m: Mode, x: Boss, s: seq<Boss>): (r: seq<Boss>)
    requires SortedBy(m, s)
    ensures SortedBy(m, r)
    ensures multiset(r) == multiset(s) + multiset{x}
    decreases |s|
  {
    if |s| == 0 then [x]
    else if Before(m, x, s[0]) then
      assert forall j :: 0 <= j < |s| ==> Before(m, x, s[j]) by {
        forall j | 0 <= j < |s| ensures Before(m, x, s[j]) {
          if j > 0 {
            BeforeTransitive(m, x, s[0], s[j]);
          }
        }
      }
      [x] + s
    else
      BeforeTotal(m, x, s[0]);
      assert s == [s[0]] + s[1..];
      var rest := Insert(m, x, s[1..]);
      SortedCons(m, s[0], s[1..], x, rest);
      [s[0]] + rest
  }

  /** The head of a sorted list may precede `x` and every element after it, so
      it may also head any sorted arrangement of those elements. */
  lemma SortedCons(m: Mode, a: Boss, t: seq<Boss>, x: Boss, u: seq<Boss>)
    requires SortedBy(m, [a] + t) && Before(m, a, x)
    requires SortedBy(m, u) && multiset(u) == multiset(t) + multiset{x}
    ensures SortedBy(m, [a] + u)
  {
    forall y | y in u ensures Before(m, a, y) {
      assert y in multiset(u);
      if y != x {
        assert y in multiset(t);
        var k :| 0 <= k < |t| && t[k] == y;
        assert ([a] + t)[0] == a && ([a] + t)[k + 1] == y;
      }
    }
    var r := [a] + u;
    forall i, j | 0 <= i < j < |r| ensures Before(m, r[i], r[j]) {
      if i > 0 {
        assert r[i] == u[i - 1] && r[j] == u[j - 1];
      } else {
        assert r[j] in u;
      }
    }
  }

  /** The stable sort of `filterBosses`: an insertion sort under the comparator
      of mode `m`. The result is ordered and a permutation of the input. */
  function Sort(m: Mode, s: seq<Boss>): (r: seq<Boss>)
    ensures SortedBy(m, r)
    ensures multiset(r) == multiset(s)
    ensures |r| == |s|
    decreases |s|
  {
    if |s| == 0 then []
    else
      assert s == [s[0]] + s[1..];
      Insert(m, s[0], Sort(m, s[1..]))
  }

  /** Sorting a list that is already in order leaves it unchanged. */
  lemma {:induction false} SortOfSorted(m: Mode, s: seq<Boss>)
    requires SortedBy(m, s)
    ensures Sort(m, s) == s
    decreases |s|
  {
    if |s| > 0 {
      SortOfSorted(m, s[1..]);
      if |s| > 1 {
        assert Before(m, s[0], s[1..][0]) by {
          assert s[1..][0] == s[1];
        }
      }
      assert s == [s[0]] + s[1..];
    }
  }

  /** Sorting twice is sorting once. */
  lemma SortIdempotent(m: Mode, s: seq<Boss>)
    ensures Sort(m, Sort(m, s)) == Sort(m, s)
  {
    SortOfSorted(m, Sort(m, s));
  }

  /** In progression order the result is non-decreasing on `order`. */
  lemma ProgressionSortedOnOrder(s: seq<Boss>)
    ensures forall i, j :: 0 <= i < j < |Sort(Progression, s)| ==>
      Sort(Progression, s)[i].order <= Sort(Progression, s)[j].order
  {
    var r := Sort(Progression, s);
    assert forall i, j :: 0 <= i < j < |r| ==> Before(Progression, r[i], r[j]);
  }

  /** In alphabetical order the result is non-decreasing on `name`. */
  lemma AlphabeticalSortedOnName(s: seq<Boss>)
    ensures forall i, j :: 0 <= i < j < |Sort(Alphabetical, s)| ==>
      LexLe(Sort(Alphabetical, s)[i].name, Sort(Alphabetical, s)[j].name)
  {
    var r := Sort(Alphabetical, s);
    assert forall i, j :: 0 <= i < j < |r| ==> Before(Alphabetical, r[i], r[j]);
  }

  /** `a` and `b` compare equal: the comparator returns 0 both ways. */
  predicate Equivalent(m: Mode, a: Boss, b: Boss) {
    Before(m, a, b) && Before(m, b, a)
  }

  /** The elements of `s` that compare equal to `x`, in the order of `s`. */
  function Peers(m: Mode, s: seq<Boss>, x: Boss): seq<Boss>
    decreases |s|
  {
    if |s| == 0 then []
    else (if Equivalent(m, s[0], x) then [s[0]] else []) + Peers(m, s[1..], x)
  }

  /** `y` and a later element cannot both equal `x` when `y` may not precede it. */
  lemma NotBothPeers(m: Mode, y: Boss, z: Boss, x: Boss)
    requires !Before(m, y, z)
    ensures !(Equivalent(m, y, x) && Equivalent(m, z, x))
  {
    if Equivalent(m, y, x) && Equivalent(m, z, x) {
      BeforeTransitive(m, y, x, z);
    }
  }

  /** Peers of a sequence with a known first element. */
  lemma PeersCons(m: Mode, z: Boss, t: seq<Boss>, x: Boss)
    ensures Peers(m, [z] + t, x) == (if Equivalent(m, z, x) then [z] else []) + Peers(m, t, x)
  {
    assert ([z] + t)[0] == z && ([z] + t)[1..] == t;
  }

  /** Inserting `y` puts it in front of all the elements equal to it. */
  lemma {:induction false} InsertPeers(m: Mode, y: Boss, t: seq<Boss>, x: Boss)
    requires SortedBy(m, t)
    ensures Peers(m, Insert(m, y, t), x) ==
      (if Equivalent(m, y, x) then [y] else []) + Peers(m, t, x)
    decreases |t|
  {
    if |t| == 0 {
      PeersCons(m, y, [], x);
    } else if Before(m, y, t[0]) {
      PeersCons(m, y, t, x);
    } else {
      var rest := Insert(m, y, t[1..]);
      InsertPeers(m, y, t[1..], x);
      NotBothPeers(m, y, t[0], x);
      PeersCons(m, t[0], rest, x);
      PeersCons(m, t[0], t[1..], x);
      assert t == [t[0]] + t[1..];
    }
  }

  /** The sort is stable: elements that compare equal keep their input order. */
  lemma {:induction false} SortStable(m: Mode, s: seq<Boss>, x: Boss)
    ensures Peers(m, Sort(m, s), x) == Peers(m, s, x)
    decreases |s|
  {
    if |s| > 0 {
      SortStable(m, s[1..], x);
      InsertPeers(m, s[0], Sort(m, s[1..]), x);
    }
  }

  /** Order values 3, 1, 2 come out as 1, 2, 3 in progression mode. */
  lemma ProgressionExample(a: Boss, b: Boss, c: Boss)
    requires a.order == 3 && b.order == 1 && c.order == 2
    ensures Sort(Progression, [a, b, c]) == [b, c, a]
  {
    var s := [a, b, c];
    assert s[1..] == [b, c];
    assert Sort(Progression, [b, c]) == [b, c] by {
      SortOfSorted(Progression, [b, c]);
    }
    assert Insert(Progression, a, [c]) == [c, a] by {
      assert [c][1..] == [];
    }
    assert Insert(Progression, a, [b, c]) == [b, c, a] by {
      assert [b, c][1..] == [c];
    }
  }
}

=== FILE: text.dfy ===
/** String helpers used by the catalogue: ASCII lower-casing, prefix tests and
    substring search, each with an independent reference definition. */
module Text {

  /** ASCII lower-casing of one character; every other character is unchanged. */
  function LowerChar(c: char): char {
    if 'A' <= c <= 'Z' then (c as int + 32) as char else c
  }

  /** ASCII upper-casing of one character; every other character is unchanged. */
  function UpperChar(c: char): char {
    if 'a' <= c <= 'z' then (c as int - 32) as char else c
  }

  /** `x` and `y` are the same character, or the upper- and lower-case forms of
      one ASCII letter. */
  predicate CaseVariant(x: char, y: char) {
    || x == y
    || ('A' <= x <= 'Z' && y as int == x as int + 32)
    || ('A' <= y <= 'Z' && x as int == y as int + 32)
  }

  /** Two strings that differ at most in the letter case of their characters. */
  predicate EqualIgnoringCase(a: string, b: string) {
    |a| == |b| && forall i :: 0 <= i < |a| ==> CaseVariant(a[i], b[i])
  }

  /** `s.toLowerCase()`, restricted to the ASCII letters: the result is `s` up to
      letter case and holds no upper-case ASCII letter. */
  function Lower(s: string): (r: string)
    ensures EqualIgnoringCase(s, r)
    ensures forall i :: 0 <= i < |r| ==> !('A' <= r[i] <= 'Z')
  {
    seq(|s|, i requires 0 <= i < |s| => LowerChar(s[i]))
  }

  /** `s.toUpperCase()`, restricted to the ASCII letters. */
  function Upper(s: string): string {
    seq(|s|, i requires 0 <= i < |s| => UpperChar(s[i]))
  }

  /** Two characters lower-case alike exactly when they are case variants. */
  lemma LowerCharEqualIff(x: char, y: char)
    ensures LowerChar(x) == LowerChar(y) <==> CaseVariant(x, y)
  {
  }

  /** Lower-casing forgets the case a string was written in. */
  lemma LowerOfUpper(s: string)
    ensures Lower(Upper(s)) == Lower(s)
    ensures EqualIgnoringCase(s, Upper(s))
  {
  }

  /** Strings equal up to letter case lower-case to the same string, and only those. */
  lemma LowerEqualIff(a: string, b: string)
    ensures Lower(a) == Lower(b) <==> EqualIgnoringCase(a, b)
  {
    if EqualIgnoringCase(a, b) {
      forall i | 0 <= i < |a| ensures Lower(a)[i] == Lower(b)[i] {
        LowerCharEqualIff(a[i], b[i]);
      }
    }
    if Lower(a) == Lower(b) {
      forall i | 0 <= i < |a| ensures CaseVariant(a[i], b[i]) {
        assert Lower(a)[i] == Lower(b)[i];
        LowerCharEqualIff(a[i], b[i]);
      }
    }
  }

  /** `t` occurs in `s` starting at index `i`. */
  ghost predicate OccursAt(s: string, t: string, i: int) {
    0 <= i && i + |t| <= |s| && s[i..i + |t|] == t
  }

  /** `s.startsWith(p)`: an occurrence of `p` at index 0. */
  predicate StartsWith(s: string, p: string)
    ensures StartsWith(s, p) <==> OccursAt(s, p, 0)
  {
    |p| <= |s| && s[..|p|] == p
  }

  /** `p` is a prefix of `s` exactly when `s` is `p` followed by some rest. */
  lemma StartsWithIsPrefix(s: string, p: string)
    ensures StartsWith(s, p) <==> exists t :: s == p + t
  {
    if StartsWith(s, p) {
      assert s == p + s[|p|..];
    }
  }

  /** `s.includes(t)`: a left-to-right scan for an occurrence of `t` in `s`. */
  function Includes(s: string, t: string): (r: bool)
    ensures r <==> exists i :: OccursAt(s, t, i)
    decreases |s|
  {
    if |s| < |t| then
      assert forall i :: !OccursAt(s, t, i);
      false
    else if StartsWith(s, t) then
      assert OccursAt(s, t, 0);
      true
    else if |s| == 0 then
      false
    else
      var r := Includes(s[1..], t);
      assert forall i :: OccursAt(s[1..], t, i) <==> OccursAt(s, t, i + 1) by {
        forall i ensures OccursAt(s[1..], t, i) <==> OccursAt(s, t, i + 1) {
          if 0 <= i && i + |t| <= |s| - 1 {
            assert s[1..][i..i + |t|] == s[i + 1..i + 1 + |t|];
          }
        }
      }
      assert forall i :: OccursAt(s, t, i) ==> i == 0 || OccursAt(s[1..], t, i - 1);
      r
  }

  /** The empty string occurs in every string, so `includes("")` always holds. */
  lemma IncludesEmpty(s: string)
    ensures Includes(s, "")
  {
    assert OccursAt(s, "", 0);
  }
}
